=== FILE: README.md ===
# Tray health monitor — Dafny model

This project models the decision logic of the `MainForm` tray monitor of the
SingleAgent service watcher. The form watches four Windows services and the
Windows Defender antivirus status, shows balloon notifications, and keeps a
tray icon that reads "Healthy" or "Not all services are healthy".

Taken out of the WinForms code, the logic has three parts, each modelled as
pure Dafny functions over immutable data:

- **Service classification** (`UpdateStatus`). An optional service state
  (`None` for the C# `null`, meaning the service was not found) maps to a
  balloon message, a severity (`ToolTipIcon` Info/Warning/Error) and a
  picture-box image (green/yellow/red/gray). It also decides whether a
  balloon is shown and which health flag is recorded. This is module
  `Classifier`, and `Monitor.UpdateStatus` applies it to the window state.
- **Health aggregation** (`UpdateNotificationIcon`). This is module `Health`.
  It covers a `map<string, bool>` seeded with five names, all `true`. The
  indexer assignment inserts absent keys. The tray summary is recomputed from
  the whole dictionary: it is healthy exactly when no value is `false`.
- **Antivirus deduplication** (`AvCheckTick`). This is `Monitor.AvCheckTick`.
  It keeps the last status string seen, initially `""`. An unchanged status
  is ignored. A changed one is classified and shows exactly one balloon.

The window is a record, `Monitor.MonitorState`, with these fields:

- `health`: the dictionary.
- `tray`: the tray summary, `None` until the first refresh.
- `images`: the image of each picture box assigned so far.
- `avLastStatus`: the last antivirus status seen.
- `balloons`: every balloon shown, in order.

The constructor is `Monitor.Construct`: four silent status updates followed by
one antivirus tick. Live events come after it, through `Monitor.Step` and
`Monitor.Run`:

- a service controller reports a change: `UpdateStatus` with notifications
  on, under the subscribed name;
- the antivirus timer fires: `AvCheckTick`.

Balloon texts are the datatype `Classifier.Message`. `Message.Text` renders
each one as the exact string the form passes to `ShowBalloonTip`.

Behaviour of `MainForm` that the model keeps, quirks included:

- The constructor records the Spooler reading under `"Dejavu"`, not under
  `"Lateral Movement Protection"`, so the dictionary gains a sixth key (see
  Findings).
- The antivirus path never writes the dictionary. So `"Windows Defender"`
  stays `true` forever, and the antivirus status never affects the tray
  summary.
- A missing antivirus status uses the Error severity. A missing service uses
  Warning.
- The message for any other service state is `"Status Changed:"` followed by
  the enum name, with no space after the colon.
- The health flag is a `bool` per name. It is `true` only when the balloon
  severity is Info, which means the service is Running.
- `UpdateStatus` shows a balloon for every service event it is given, even
  when the state is the same as last time. Whether repeated states reach it
  depends on the service controller class, which is not part of this model.
- `UpdateNotificationIcon` returns nothing. It only sets the tray icon and
  its text from the whole dictionary.

## Model

| member | source | states |
|---|---|---|
| Classifier.StateName | SingleAgent/MainForm.cs:58 | the enum name used in the message is non-empty and starts with an upper-case letter |
| Classifier.StateNameRoundTrip | SingleAgent/MainForm.cs:58 | reading an enum name back gives the same state |
| Classifier.Message.Text | SingleAgent/MainForm.cs:58-138 | every balloon text is non-empty; exactly the status-changed message starts with "Status Changed:", and what follows is the state's name |
| Classifier.MessageTextDistinct | SingleAgent/MainForm.cs:58-138 | no two balloon messages share a text |
| Classifier.ClassifyService | SingleAgent/MainForm.cs:56-82 | Info exactly for Running; Error exactly for Stopped; gray image exactly for not found; yellow exactly for the other states; green iff Info and red iff Error |
| Classifier.ServiceTable | SingleAgent/MainForm.cs:58-82 | the exact texts: "Not found", "Back to normal", "Service stopped. System might be compromised.", and "Status Changed:" plus the state name |
| Classifier.OtherMessageHasNoSpace | SingleAgent/MainForm.cs:58 | for a state other than Running or Stopped, the message is the prefix ending in ':' and then the state name, with no space between them |
| Classifier.ServiceMessageRoundTrip | SingleAgent/MainForm.cs:58-78 | parsing a service message gives back the status that produced it, not-found included |
| Classifier.ServiceMessagesDistinct | SingleAgent/MainForm.cs:58-78 | two statuses with the same message text are the same status |
| Classifier.ClassifyAv | SingleAgent/MainForm.cs:121-144 | Info exactly for "Enabled"; Warning exactly for "Need Update"; gray exactly for strings outside the three known ones, and those always get Error and "Not found", never Info |
| Classifier.AvTable | SingleAgent/MainForm.cs:121-144 | the exact texts "Healthy", "Out of date", "Disabled" and "Not found" for the default branch |
| Classifier.AvMessageDeterminesVerdict | SingleAgent/MainForm.cs:121-144 | the antivirus message text alone determines the severity and the image |
| Classifier.NotFoundSeverityDiffers | SingleAgent/MainForm.cs:61-143 | the same gray image gets Warning for a missing service but Error for a missing antivirus engine |
| Health.Indicator | SingleAgent/MainForm.cs:96-105 | the tray summary is healthy iff every entry of the whole dictionary is `true` |
| Health.Tray.Text | SingleAgent/MainForm.cs:99-104 | both tooltip texts carry the "Invinsense 3.0 - " prefix |
| Health.TrayTable | SingleAgent/MainForm.cs:99-104 | the exact tooltip texts "Invinsense 3.0 - Not all services are healthy" and "Invinsense 3.0 - Healthy" |
| Health.TrayTextDistinct | SingleAgent/MainForm.cs:99-104 | the tooltip text tells the healthy and degraded summaries apart |
| Health.Seed | SingleAgent/MainForm.cs:24-31 | the seed has exactly the five names, five entries, all `true` |
| Health.SeedIsHealthy | SingleAgent/MainForm.cs:24-31 | the summary is healthy before any observation arrives |
| Health.IndicatorMatchesValues | SingleAgent/MainForm.cs:96-105 | the summary is healthy iff `false` is not among the dictionary's values |
| Health.ScanForUnhealthy | SingleAgent/MainForm.cs:96 | enumerating the entries finds a false value iff one exists, which is exactly when the summary is degraded |
| Health.Assign | SingleAgent/MainForm.cs:94 | the written name holds the flag; every other entry is unchanged; an absent name is inserted and grows the map by one, a present one keeps its size |
| Health.OverwritesIsAssign | SingleAgent/MainForm.cs:94 | the "only this key changes" description determines the resulting dictionary |
| Health.IndicatorAfterAssign | SingleAgent/MainForm.cs:92-105 | after one write the summary is healthy iff the new flag is `true` and every other entry was `true` |
| Health.AssignIdempotent | SingleAgent/MainForm.cs:94 | writing the same flag twice equals writing it once |
| Monitor.Initial | SingleAgent/MainForm.cs:24-117 | before the constructor body the dictionary already summarises as healthy, and a first antivirus status of `""` is taken for a repeat and changes nothing |
| Monitor.UpdateNotificationIcon | SingleAgent/MainForm.cs:92-106 | only the named entry changes; the tray then shows the summary of the whole dictionary, healthy iff the flag and all other entries are `true` |
| Monitor.UpdateStatus | SingleAgent/MainForm.cs:56-90 | records `true` exactly for Running; sets only its own picture box; shows one balloon (title, message, severity) iff notifications are on; the tray is consistent afterwards |
| Monitor.AvCheckTick | SingleAgent/MainForm.cs:108-147 | an unchanged status changes nothing; a changed one is remembered, sets the antivirus image and adds exactly one balloon; the dictionary and tray are never touched |
| Monitor.AvTickIdempotent | SingleAgent/MainForm.cs:114-119 | a second tick with the same status changes nothing |
| Monitor.ServiceIdDistinct | SingleAgent/MainForm.cs:19-22 | the four controllers watch four different operating-system services |
| Monitor.BoxOf | SingleAgent/MainForm.cs:39-47 | each controller's picture box is one of the four service boxes, never the antivirus one |
| Monitor.BoxTable | SingleAgent/MainForm.cs:39-47 | Wazuh paints pbWazuh, Deceptive Bytes pbDbytes, Sysmon pbSysmon and the Spooler pbDejavu, both at startup and on live events |
| Monitor.BoxOfDistinct | SingleAgent/MainForm.cs:39-47 | no two controllers share a picture box |
| Monitor.SubscribedName | SingleAgent/MainForm.cs:39-42 | every live service event writes one of the four subscribed names |
| Monitor.LiveNames | SingleAgent/MainForm.cs:39-42 | the subscribed names together with "Windows Defender" are exactly the seeded names |
| Monitor.SilentPass | SingleAgent/MainForm.cs:44-47 | the four silent calls leave the dictionary as the four writes in order, show no balloon, leave the antivirus image unset and the tray consistent |
| Monitor.SilentPassPaints | SingleAgent/MainForm.cs:44-47 | the silent pass paints each controller's own box with the image of its startup reading, the box its live events paint too |
| Monitor.StartupValues | SingleAgent/MainForm.cs:44-47 | after the silent pass, each service entry holds whether its reading is Running, and the entries the pass does not write keep their seeded `true` |
| Monitor.Construct | SingleAgent/MainForm.cs:44-49 | after construction the tray is consistent and the last antivirus status is the first reading; an empty first reading is suppressed (no balloon, no image), any other shows exactly one balloon |
| Monitor.ConstructHealth | SingleAgent/MainForm.cs:44-49 | the constructed dictionary has six keys (the seed plus "Dejavu"); "Windows Defender" and "Lateral Movement Protection" are still `true`; "Dejavu" and the other three service names hold whether their startup reading is Running |
| Monitor.AsWrittenStartup | SingleAgent/MainForm.cs:44-47 | the same six-entry layout for the dictionary the four silent calls leave when the Spooler goes under "Dejavu" |
| Monitor.ConstructTray | SingleAgent/MainForm.cs:44-49 | after construction the tray is healthy iff all four startup readings are Running |
| Monitor.Step | SingleAgent/MainForm.cs:39-147 | a service event writes only its subscribed name, paints only its own picture box with the image of its status, and appends exactly the balloon (subscribed name, message, severity) of its status; an antivirus tick with an unchanged status changes nothing, a changed one appends exactly the "Windows Defender" balloon of its verdict and sets only the antivirus picture box, and a tick never touches the dictionary or tray; balloons are only appended |
| Monitor.Run | SingleAgent/MainForm.cs:39-42 | over any events, no entry is removed; only subscribed names are added or changed; tray consistency is kept; earlier balloons are kept as a prefix |
| Monitor.RunBalloonCount | SingleAgent/MainForm.cs:84-146 | the number of balloons over any events is one per service event plus one per antivirus status change |
| Monitor.RepeatedAvStatusIsSilent | SingleAgent/MainForm.cs:114-119 | any number of identical antivirus ticks shows at most one balloon, and none when the status equals the last one seen |
| Monitor.DejavuEntryFrozen | SingleAgent/MainForm.cs:42-47 | no live event ever changes the "Dejavu" entry |
| Monitor.DefenderEntryAlwaysHealthy | SingleAgent/MainForm.cs:108-147 | after construction and any events, the "Windows Defender" entry is `true` |
| Monitor.FalseEntryDegrades | SingleAgent/MainForm.cs:96-100 | one `false` entry degrades a consistent tray |
| Monitor.StaleDejavuKeepsTrayDegraded | SingleAgent/MainForm.cs:47 | as written, a Spooler not running at startup keeps the tray degraded after any later events |
| Monitor.StaleDejavuCounterexample | SingleAgent/MainForm.cs:47 | a concrete run where every latest reading is Running yet the tray reads degraded |
| Monitor.AsWrittenNeverTracks | SingleAgent/MainForm.cs:47 | the as-written constructor's dictionary never mirrors any readings, because of the extra "Dejavu" key |
| Monitor.TrackedTray | SingleAgent/MainForm.cs:96-105 | when the dictionary mirrors the readings, the tray is healthy iff every service is Running |
| Monitor.StepTracks | SingleAgent/MainForm.cs:39-42 | one event keeps the dictionary mirroring the readings updated by that event |
| Monitor.RunTracks | SingleAgent/MainForm.cs:39-42 | any event sequence keeps the dictionary mirroring the latest readings |
| Monitor.ConstructIntended | SingleAgent/MainForm.cs:44-47 | the constructor with the Spooler recorded under its subscribed name leaves a dictionary that mirrors the startup readings |
| Monitor.IntendedTrayFollowsLatestReadings | SingleAgent/MainForm.cs:42-47 | with that constructor, after any events, the tray is healthy iff every service's latest reading is Running (both directions) |

## Left out

- WinForms presentation is left out: bitmaps, tray-icon images, the 5000 ms balloon duration and balloon rendering. A balloon is kept as (title, message, severity), a picture box as its image tier, and the tray icon as the summary it shows.
- The images and tray icon set by `InitializeComponent` are left out. A picture box not yet assigned is absent from `images`, and the tray is `None` until the first refresh.
- `CreateRoundRectRgn` and the `Region` setup are left out: they are a foreign GDI call.
- `MouseDownFilter`, `FormClicked`/`Hide`, `MainFormClosing`, `ShowClick`/`BringToTop` and the `InvokeRequired` marshalling are left out. They are UI glue with no health logic.
- `ExtendedServiceController` and `ServiceHelper.AVStatus` are not part of this model. Their results are free inputs: `Readings` at startup, the state in each `ServiceChanged` event, and the string in each `AvTick`. Whatever change detection the controller does is not modelled, so any event sequence is allowed.
- `ServiceHelper.AVStatus` returning `null` is not modelled: the status is always a string.
- Timers, event wiring and concurrency are left out. The constructor runs first, then one event at a time. The source subscribes before its silent pass, so a real event could interleave with construction; the model does not cover that.

## Findings

| source | as written | input that shows it | evidently intended | confidence | as-written member | corrected member |
|---|---|---|---|---|---|---|
| SingleAgent/MainForm.cs:47 | The constructor records the Spooler's startup reading under "Dejavu". Live events for the same controller (line 42) write "Lateral Movement Protection". So "Dejavu" becomes a sixth entry that nothing updates again. | Wazuh, Deceptive Bytes and Sysmon are Running at startup, Spooler is Stopped, and then the Spooler reports Running. Every latest reading is Running, but the tray stays "Not all services are healthy" for good. | Record the startup reading under "Lateral Movement Protection", so the tray follows every service's latest reading. | high: line 42 subscribes the same controller under "Lateral Movement Protection"; not executed | Monitor.StaleDejavuCounterexample | Monitor.IntendedTrayFollowsLatestReadings |

`Monitor.Construct` models the code as written, and the finding is stated
about it by `Monitor.StaleDejavuKeepsTrayDegraded` and
`Monitor.StaleDejavuCounterexample`. `Monitor.ConstructIntended` is the
corrected constructor. `Monitor.IntendedTrayFollowsLatestReadings` proves the
intended property about it. `Run`, `RunBalloonCount` and
`RepeatedAvStatusIsSilent` hold from any starting state, so they cover both
constructors. `RunTracks` and `TrackedRunTray` require `Tracks`, which only
`ConstructIntended` establishes. The as-written constructor never satisfies
it (`Monitor.AsWrittenNeverTracks`), because its dictionary has the extra
"Dejavu" key.

=== FILE: classifier.dfy ===
/**
 The two classification tables of the tray monitor: one for the run state of a
 Windows service (`UpdateStatus`) and one for the status string of the
 antivirus engine (`AvCheckTick`). Each maps a raw status to the balloon
 message, the balloon severity and the status image the picture box shows.
 */
module Classifier {
  import opened Wrappers

  /** The run states a service controller reports (`ServiceControllerStatus`). */
  datatype ServiceState =
    | Stopped | StartPending | StopPending | Running
    | ContinuePending | PausePending | Paused

  /** Balloon severity (`ToolTipIcon`; its `None` member is never used by the monitor). */
  datatype Icon = InfoIcon | WarningIcon | ErrorIcon

  /** The four status images: green, yellow, red and gray. */
  datatype Image = OkImage | WarnImage | ErrorImage | NotFoundImage

  const NotFoundMessage := "Not found"
  const BackToNormalMessage := "Back to normal"
  const StoppedMessage := "Service stopped. System might be compromised."
  /** Prefix of the message for every other state; note there is no space after the colon. */
  const StatusChangedPrefix := "Status Changed:"

  /** The balloon texts either table can choose; `Text` renders each one. */
  datatype Message =
    | NotFoundMsg | BackToNormalMsg | ServiceStoppedMsg | StatusChangedMsg(state: ServiceState)
    | HealthyMsg | OutOfDateMsg | DisabledMsg
  {
    /**
     The exact balloon text. Only the status-changed message carries the
     "Status Changed:" prefix, and it is followed by the state's name alone.
     */
    function Text(): (t: string)
      ensures |t| > 0
      ensures StatusChangedMsg? <==> |StatusChangedPrefix| < |t| && t[..|StatusChangedPrefix|] == StatusChangedPrefix
      ensures StatusChangedMsg? ==> t[|StatusChangedPrefix|..] == StateName(state)
    {
      match this
      case NotFoundMsg => NotFoundMessage
      case BackToNormalMsg => BackToNormalMessage
      case ServiceStoppedMsg =>
        assert StoppedMessage[1] != StatusChangedPrefix[1];
        StoppedMessage
      case StatusChangedMsg(st) => StatusChangedPrefix + StateName(st)
      case HealthyMsg => "Healthy"
      case OutOfDateMsg => "Out of date"
      case DisabledMsg => "Disabled"
    }
  }

  /** No two messages share a text: the balloon text alone says which message was shown. */
  lemma MessageTextDistinct(a: Message, b: Message)
    requires a.Text() == b.Text()
    ensures a == b
  {
    if a.StatusChangedMsg? {
      StateNameRoundTrip(a.state);
      StateNameRoundTrip(b.state);
    }
  }

  /** What one classification decides: the balloon text, its severity and the image shown. */
  datatype Verdict = Verdict(message: Message, icon: Icon, image: Image)

  /** The enum member's name, as `ToString()` renders it. */
  function StateName(st: ServiceState): (n: string)
    ensures |n| > 0 && 'A' <= n[0] <= 'Z'
  {
    match st
    case Stopped => "Stopped"
    case StartPending => "StartPending"
    case StopPending => "StopPending"
    case Running => "Running"
    case ContinuePending => "ContinuePending"
    case PausePending => "PausePending"
    case Paused => "Paused"
  }

  /** Reads an enum member's name back; `None` for any other string. */
  function StateOfName(n: string): Option<ServiceState>
  {
    if n == "Stopped" then Some(Stopped)
    else if n == "StartPending" then Some(StartPending)
    else if n == "StopPending" then Some(StopPending)
    else if n == "Running" then Some(Running)
    else if n == "ContinuePending" then Some(ContinuePending)
    else if n == "PausePending" then Some(PausePending)
    else if n == "Paused" then Some(Paused)
    else None
  }

  /** Reading an enum name back gives the state it names. */
  lemma StateNameRoundTrip(st: ServiceState)
    ensures StateOfName(StateName(st)) == Some(st)
  {
  }

  /**
   Classifies a service's state; `None` means the service was not found.
   Only `Running` is healthy (the Info severity and the green image), only
   `Stopped` is an error, and the image tier and the severity always agree.
   */
  function ClassifyService(status: Option<ServiceState>): (v: Verdict)
    ensures v.icon == InfoIcon <==> status == Some(Running)
    ensures v.icon == ErrorIcon <==> status == Some(Stopped)
    ensures v.image == NotFoundImage <==> status.None?
    ensures v.image == WarnImage <==> status.Some? && status.value != Running && status.value != Stopped
    ensures v.image == OkImage <==> v.icon == InfoIcon
    ensures v.image == ErrorImage <==> v.icon == ErrorIcon
  {
    match status
    case None => Verdict(NotFoundMsg, WarningIcon, NotFoundImage)
    case Some(Running) => Verdict(BackToNormalMsg, InfoIcon, OkImage)
    case Some(Stopped) => Verdict(ServiceStoppedMsg, ErrorIcon, ErrorImage)
    case Some(st) => Verdict(StatusChangedMsg(st), WarningIcon, WarnImage)
  }

  /** The service table row by row, with the exact texts. */
  lemma ServiceTable(st: ServiceState)
    ensures ClassifyService(None).message.Text() == "Not found"
    ensures ClassifyService(Some(Running)).message.Text() == "Back to normal"
    ensures ClassifyService(Some(Stopped)).message.Text() == "Service stopped. System might be compromised."
    ensures st != Running && st != Stopped ==> ClassifyService(Some(st)).message.Text() == "Status Changed:" + StateName(st)
  {
  }

  /** The message of every state other than `Running` and `Stopped`: the prefix, then the enum name with no space between. */
  lemma OtherMessageHasNoSpace(st: ServiceState)
    requires st != Running && st != Stopped
    ensures ClassifyService(Some(st)).message.Text()[..|StatusChangedPrefix|] == "Status Changed:"
    ensures ClassifyService(Some(st)).message.Text()[|StatusChangedPrefix|..] == StateName(st)
    ensures ClassifyService(Some(st)).message.Text()[|StatusChangedPrefix| - 1] == ':'
    ensures ClassifyService(Some(st)).message.Text()[|StatusChangedPrefix|] != ' '
  {
    var m := ClassifyService(Some(st)).message.Text();
    assert m == StatusChangedPrefix + StateName(st);
  }

  /**
   Reads a service balloon message back to the status that produced it:
   `Some(None)` for the not-found message, `None` for text no status yields.
   */
  function ParseServiceMessage(m: string): Option<Option<ServiceState>>
  {
    if m == NotFoundMessage then Some(None)
    else if m == BackToNormalMessage then Some(Some(Running))
    else if m == StoppedMessage then Some(Some(Stopped))
    else if |StatusChangedPrefix| <= |m| && m[..|StatusChangedPrefix|] == StatusChangedPrefix then
      match StateOfName(m[|StatusChangedPrefix|..])
      case Some(st) => if st == Running || st == Stopped then None else Some(Some(st))
      case None => None
    else None
  }

  /** Every service message names its status: the message alone recovers it. */
  lemma ServiceMessageRoundTrip(status: Option<ServiceState>)
    ensures ParseServiceMessage(ClassifyService(status).message.Text()) == Some(status)
  {
    match status
    case None =>
    case Some(Running) =>
    case Some(Stopped) =>
    case Some(st) =>
      var m := ClassifyService(status).message.Text();
      // only the status-changed message carries the prefix
      assert m != NotFoundMsg.Text() && m != BackToNormalMsg.Text() && m != ServiceStoppedMsg.Text();
      StateNameRoundTrip(st);
  }

  /** Hence the service table never gives two statuses the same message. */
  lemma ServiceMessagesDistinct(a: Option<ServiceState>, b: Option<ServiceState>)
    requires ClassifyService(a).message.Text() == ClassifyService(b).message.Text()
    ensures a == b
  {
    ServiceMessageRoundTrip(a);
    ServiceMessageRoundTrip(b);
  }

  const AvEnabled := "Enabled"
  const AvNeedUpdate := "Need Update"
  const AvDisabled := "Disabled"

  /**
   Classifies the antivirus status string. Only "Enabled" is healthy; any
   string outside the three known ones fails closed: it is shown as not found,
   with the Error severity, never Info.
   */
  function ClassifyAv(status: string): (v: Verdict)
    ensures v.icon == InfoIcon <==> status == AvEnabled
    ensures v.icon == WarningIcon <==> status == AvNeedUpdate
    ensures v.image == OkImage <==> v.icon == InfoIcon
    ensures v.image == WarnImage <==> v.icon == WarningIcon
    ensures v.image == NotFoundImage <==> status != AvEnabled && status != AvNeedUpdate && status != AvDisabled
    ensures v.image == NotFoundImage ==> v.icon == ErrorIcon && v.message == NotFoundMsg
  {
    if status == AvEnabled then Verdict(HealthyMsg, InfoIcon, OkImage)
    else if status == AvNeedUpdate then Verdict(OutOfDateMsg, WarningIcon, WarnImage)
    else if status == AvDisabled then Verdict(DisabledMsg, ErrorIcon, ErrorImage)
    else Verdict(NotFoundMsg, ErrorIcon, NotFoundImage)
  }

  /** The antivirus table row by row, with the exact texts. */
  lemma AvTable(status: string)
    ensures ClassifyAv("Enabled").message.Text() == "Healthy"
    ensures ClassifyAv("Need Update").message.Text() == "Out of date"
    ensures ClassifyAv("Disabled").message.Text() == "Disabled"
    ensures status != "Enabled" && status != "Need Update" && status != "Disabled" ==>
              ClassifyAv(status).message.Text() == "Not found"
  {
  }

  /** The antivirus messages are distinct too: the message alone decides the whole verdict. */
  lemma AvMessageDeterminesVerdict(a: string, b: string)
    requires ClassifyAv(a).message.Text() == ClassifyAv(b).message.Text()
    ensures ClassifyAv(a) == ClassifyAv(b)
  {
  }

  /**
   The two tables disagree on an absent subject: a missing service is a
   warning, a missing antivirus engine an error.
   */
  lemma NotFoundSeverityDiffers(avStatus: string)
    requires ClassifyAv(avStatus).image == NotFoundImage
    ensures ClassifyService(None).image == ClassifyAv(avStatus).image
    ensures ClassifyService(None).icon == WarningIcon
    ensures ClassifyAv(avStatus).icon == ErrorIcon
  {
  }
}

=== FILE: health.dfy ===
/**
 The health aggregator: a dictionary from subject name to a healthy flag,
 seeded optimistically, overwritten one key at a time, and summarised into
 the tray indicator by asking whether any flag is false.
 */
module Health {

  type HealthMap = map<string, bool>

  const DeceptiveBytes := "Deceptive Bytes"
  const WindowsDefender := "Windows Defender"
  const Wazuh := "Wazuh"
  const MicrosoftSysmon := "Microsoft Sysmon"
  const LateralMovementProtection := "Lateral Movement Protection"

  /** The six names the monitor ever records are pairwise distinct. */
  lemma NamesDistinct()
    ensures DeceptiveBytes != WindowsDefender && DeceptiveBytes != Wazuh && DeceptiveBytes != MicrosoftSysmon
    ensures DeceptiveBytes != LateralMovementProtection && WindowsDefender != Wazuh
    ensures WindowsDefender != MicrosoftSysmon && WindowsDefender != LateralMovementProtection
    ensures Wazuh != MicrosoftSysmon && Wazuh != LateralMovementProtection && MicrosoftSysmon != LateralMovementProtection
    ensures "Dejavu" != DeceptiveBytes && "Dejavu" != WindowsDefender && "Dejavu" != Wazuh
    ensures "Dejavu" != MicrosoftSysmon && "Dejavu" != LateralMovementProtection
  {
  }

  /** The names the dictionary is seeded with. */
  function SeedNames(): set<string>
  {
    {DeceptiveBytes, WindowsDefender, Wazuh, MicrosoftSysmon, LateralMovementProtection}
  }

  /** The dictionary before any observation: every seeded subject is assumed healthy. */
  function Seed(): (h: HealthMap)
    ensures h.Keys == SeedNames()
    ensures |h| == 5
    ensures forall k :: k in h ==> h[k]
  {
    map[DeceptiveBytes := true, WindowsDefender := true, Wazuh := true,
        MicrosoftSysmon := true, LateralMovementProtection := true]
  }

  /** The product name every tray tooltip starts with. */
  const TrayPrefix := "Invinsense 3.0 - "

  /** The summary the tray icon shows. */
  datatype Tray = Healthy | Degraded
  {
    /** The tray tooltip text for each summary; both share the product prefix. */
    function Text(): (t: string)
      ensures |TrayPrefix| < |t| && t[..|TrayPrefix|] == TrayPrefix
    {
      match this
      case Healthy => TrayPrefix + "Healthy"
      case Degraded => TrayPrefix + "Not all services are healthy"
    }
  }

  /** The two tooltip texts, exactly. */
  lemma TrayTable()
    ensures Healthy.Text() == "Invinsense 3.0 - Healthy"
    ensures Degraded.Text() == "Invinsense 3.0 - Not all services are healthy"
  {
  }

  /** The tooltip text tells the two summaries apart. */
  lemma TrayTextDistinct(a: Tray, b: Tray)
    requires a.Text() == b.Text()
    ensures a == b
  {
  }

  /** Whether some entry of the dictionary holds `false`. */
  predicate AnyUnhealthy(h: HealthMap)
  {
    exists k :: k in h && !h[k]
  }

  /** The tray summary, recomputed from the whole dictionary: healthy exactly when no value is `false`. */
  function Indicator(h: HealthMap): (t: Tray)
    ensures t == Healthy <==> forall k :: k in h ==> h[k]
  {
    if AnyUnhealthy(h) then Degraded else Healthy
  }

  /**
   The enumeration the dictionary query performs: visit the entries one by
   one and stop at the first false value.
   */
  method ScanForUnhealthy(h: HealthMap) returns (found: bool)
    ensures found <==> exists k :: k in h && !h[k]
    ensures found <==> Indicator(h) == Degraded
  {
    var rest := h.Keys;
    found := false;
    while rest != {} && !found
      invariant rest <= h.Keys
      invariant found <==> exists k :: k in h.Keys - rest && !h[k]
      decreases |rest|
    {
      var k :| k in rest;
      found := !h[k];
      rest := rest - {k};
    }
  }

  /** The summary agrees with asking whether `false` is among the dictionary's values. */
  lemma IndicatorMatchesValues(h: HealthMap)
    ensures Indicator(h) == Healthy <==> false !in h.Values
  {
    if false in h.Values {
      var k :| k in h && h[k] == false;
    }
  }

  /** `h2` is `h` with `name` set to `flag`: an absent name is inserted, every other entry is kept. */
  ghost predicate Overwrites(h: HealthMap, h2: HealthMap, name: string, flag: bool)
  {
    && (forall k :: k in h2 <==> k in h || k == name)
    && name in h2 && h2[name] == flag
    && forall k :: k in h && k != name ==> h2[k] == h[k]
  }

  /** `Overwrites` pins its result down completely. */
  lemma OverwritesIsAssign(h: HealthMap, h2: HealthMap, name: string, flag: bool)
    requires Overwrites(h, h2, name, flag)
    ensures h2 == h[name := flag]
  {
  }

  /** The indexer assignment: sets one entry, inserting the key when it is absent. */
  function Assign(h: HealthMap, name: string, flag: bool): (h2: HealthMap)
    ensures Overwrites(h, h2, name, flag)
    ensures name in h ==> |h2| == |h|
    ensures name !in h ==> |h2| == |h| + 1
  {
    h[name := flag]
  }

  /**
   After one assignment the summary is healthy exactly when the new flag is
   `true` and every other entry was already `true`.
   */
  lemma IndicatorAfterAssign(h: HealthMap, name: string, flag: bool)
    ensures Indicator(Assign(h, name, flag)) == Healthy
        <==> flag && forall k :: k in h && k != name ==> h[k]
  {
    var h2 := Assign(h, name, flag);
    if Indicator(h2) == Healthy {
      forall k | k in h && k != name
        ensures h[k]
      {
        assert h2[k] == h[k];
      }
    } else {
      var k :| k in h2 && !h2[k];
      assert k == name || (k in h && !h[k]);
    }
  }

  /** Assigning the same flag twice is the same as assigning it once. */
  lemma AssignIdempotent(h: HealthMap, name: string, flag: bool)
    ensures Assign(Assign(h, name, flag), name, flag) == Assign(h, name, flag)
  {
  }

  /** Before any observation arrives the summary is healthy. */
  lemma SeedIsHealthy()
    ensures Indicator(Seed()) == Healthy
  {
  }
}

=== FILE: monitor.dfy ===
/**
 The tray monitor's window state and the three handlers that change it:
 a service status update, the health-icon refresh it triggers, and the
 antivirus timer tick. The visible effects are kept as data: the balloons
 shown so far, the image of each picture box and the tray summary.
 */
module Monitor {
  import opened Wrappers
  import opened Classifier
  import opened Health

  /** The five status picture boxes of the window. */
  datatype PictureBox = PbWazuh | PbDbytes | PbSysmon | PbDejavu | PbDefender

  /** One balloon notification: title, text and severity. */
  datatype Balloon = Balloon(title: string, message: Message, icon: Icon)

  /**
   The window's state. `tray` is `None` until the first health refresh sets
   the tray icon; `images` holds only the picture boxes assigned so far.
   */
  datatype MonitorState = MonitorState(
    health: HealthMap,
    tray: Option<Tray>,
    images: map<PictureBox, Image>,
    avLastStatus: string,
    balloons: seq<Balloon>)

  /**
   The state once the fields are initialised, before the constructor body runs:
   the seeded dictionary already summarises as healthy, and a first antivirus
   status of `""` would be taken for a repeat and ignored.
   */
  function Initial(): (s: MonitorState)
    ensures Indicator(s.health) == Healthy
    ensures AvCheckTick(s, "") == s
  {
    MonitorState(Seed(), None, map[], "", [])
  }

  /** The tray icon shows the summary of the current dictionary. */
  ghost predicate Consistent(s: MonitorState)
  {
    s.tray == Some(Indicator(s.health))
  }

  /** Records one subject's flag and refreshes the tray icon from the whole dictionary. */
  function UpdateNotificationIcon(s: MonitorState, name: string, flag: bool): (r: MonitorState)
    ensures Overwrites(s.health, r.health, name, flag)
    ensures Consistent(r)
    ensures r.tray == Some(Healthy) <==> flag && forall k :: k in s.health && k != name ==> s.health[k]
    ensures r.images == s.images && r.avLastStatus == s.avLastStatus && r.balloons == s.balloons
  {
    var h := Assign(s.health, name, flag);
    IndicatorAfterAssign(s.health, name, flag);
    s.(health := h, tray := Some(Indicator(h)))
  }

  /**
   Handles one service status: sets the picture box image, shows a balloon
   only when asked to, and records the subject as healthy exactly when the
   service is running.
   */
  function UpdateStatus(s: MonitorState, name: string, box: PictureBox,
                        status: Option<ServiceState>, showNotification: bool): (r: MonitorState)
    ensures Overwrites(s.health, r.health, name, status == Some(Running))
    ensures Consistent(r)
    ensures forall b :: b in r.images <==> b in s.images || b == box
    ensures r.images[box] == ClassifyService(status).image
    ensures forall b :: b in s.images && b != box ==> r.images[b] == s.images[b]
    ensures showNotification ==>
              r.balloons == s.balloons + [Balloon(name, ClassifyService(status).message, ClassifyService(status).icon)]
    ensures !showNotification ==> r.balloons == s.balloons
    ensures r.avLastStatus == s.avLastStatus
  {
    var v := ClassifyService(status);
    var shown := s.(images := s.images[box := v.image]);
    var notified := if showNotification then shown.(balloons := shown.balloons + [Balloon(name, v.message, v.icon)]) else shown;
    UpdateNotificationIcon(notified, name, v.icon == InfoIcon)
  }

  /**
   One antivirus timer tick. A status equal to the last one seen changes
   nothing; a new one is remembered, classified and announced by exactly one
   balloon. The health dictionary and the tray icon are never touched.
   */
  function AvCheckTick(s: MonitorState, status: string): (r: MonitorState)
    ensures status == s.avLastStatus ==> r == s
    ensures status != s.avLastStatus ==>
              && r.avLastStatus == status
              && r.balloons == s.balloons + [Balloon(WindowsDefender, ClassifyAv(status).message, ClassifyAv(status).icon)]
              && r.images == s.images[PbDefender := ClassifyAv(status).image]
    ensures r.health == s.health && r.tray == s.tray
  {
    if s.avLastStatus == status then s
    else
      var v := ClassifyAv(status);
      s.(avLastStatus := status,
         images := s.images[PbDefender := v.image],
         balloons := s.balloons + [Balloon(WindowsDefender, v.message, v.icon)])
  }

  /** A second tick with the same status is silent: ticking twice equals ticking once. */
  lemma AvTickIdempotent(s: MonitorState, status: string)
    ensures AvCheckTick(AvCheckTick(s, status), status) == AvCheckTick(s, status)
  {
  }

  /** The four service controllers the window owns. */
  datatype Service = WazuhService | DbytesService | SysmonService | DejavuService

  /** The operating-system name each controller watches. */
  function ServiceId(svc: Service): string
  {
    match svc
    case WazuhService => "WazuhSvc"
    case DbytesService => "DBytesService"
    case SysmonService => "Sysmon64"
    case DejavuService => "Spooler"
  }

  /** The subject name each controller's change event reports under. */
  function SubscribedName(svc: Service): (n: string)
    ensures n in LiveNames()
  {
    match svc
    case WazuhService => Wazuh
    case DbytesService => DeceptiveBytes
    case SysmonService => MicrosoftSysmon
    case DejavuService => LateralMovementProtection
  }

  /** Each controller watches a different operating-system service. */
  lemma ServiceIdDistinct(a: Service, b: Service)
    requires ServiceId(a) == ServiceId(b)
    ensures a == b
  {
  }

  /** The picture box each controller's change event updates; the antivirus box is never one of them. */
  function BoxOf(svc: Service): (b: PictureBox)
    ensures b != PbDefender
  {
    match svc
    case WazuhService => PbWazuh
    case DbytesService => PbDbytes
    case SysmonService => PbSysmon
    case DejavuService => PbDejavu
  }

  /** Which box each controller's updates paint. */
  lemma BoxTable()
    ensures BoxOf(WazuhService) == PbWazuh && BoxOf(DbytesService) == PbDbytes
    ensures BoxOf(SysmonService) == PbSysmon && BoxOf(DejavuService) == PbDejavu
  {
  }

  /** Each controller has a picture box of its own. */
  lemma BoxOfDistinct(a: Service, b: Service)
    requires BoxOf(a) == BoxOf(b)
    ensures a == b
  {
  }

  /** The names live service events write: every seeded name except the antivirus one. */
  function LiveNames(): (names: set<string>)
    ensures names + {WindowsDefender} == SeedNames()
    ensures WindowsDefender !in names
  {
    {Wazuh, DeceptiveBytes, MicrosoftSysmon, LateralMovementProtection}
  }

  /** One reading per service controller. */
  datatype Readings = Readings(wazuh: Option<ServiceState>, dbytes: Option<ServiceState>,
                               sysmon: Option<ServiceState>, dejavu: Option<ServiceState>)
  {
    /** The reading of one service. */
    function Of(svc: Service): Option<ServiceState>
    {
      match svc
      case WazuhService => wazuh
      case DbytesService => dbytes
      case SysmonService => sysmon
      case DejavuService => dejavu
    }

    /** These readings with one service's reading replaced. */
    function With(svc: Service, status: Option<ServiceState>): (r: Readings)
      ensures r.Of(svc) == status
      ensures forall other :: other != svc ==> r.Of(other) == Of(other)
    {
      match svc
      case WazuhService => this.(wazuh := status)
      case DbytesService => this.(dbytes := status)
      case SysmonService => this.(sysmon := status)
      case DejavuService => this.(dejavu := status)
    }
  }

  /** The dictionary the silent pass leaves, with the Spooler reading recorded under `dejavuName`. */
  function StartupHealth(r: Readings, dejavuName: string): HealthMap
  {
    Assign(Assign(Assign(Assign(Seed(), Wazuh, r.wazuh == Some(Running)),
                         DeceptiveBytes, r.dbytes == Some(Running)),
                  MicrosoftSysmon, r.sysmon == Some(Running)),
           dejavuName, r.dejavu == Some(Running))
  }

  /**
   The constructor's four `UpdateStatus` calls with notifications off, in
   source order; the last one records the Spooler reading under `dejavuName`.
   */
  function SilentPass(r: Readings, dejavuName: string): (s: MonitorState)
    ensures s.health == StartupHealth(r, dejavuName)
    ensures Consistent(s)
    ensures s.balloons == [] && s.avLastStatus == ""
    ensures PbDefender !in s.images
  {
    var s1 := UpdateStatus(Initial(), Wazuh, BoxOf(WazuhService), r.wazuh, false);
    var s2 := UpdateStatus(s1, DeceptiveBytes, BoxOf(DbytesService), r.dbytes, false);
    var s3 := UpdateStatus(s2, MicrosoftSysmon, BoxOf(SysmonService), r.sysmon, false);
    var s4 := UpdateStatus(s3, dejavuName, BoxOf(DejavuService), r.dejavu, false);
    SilentPassHealth(r, s1, s2, s3, s4, dejavuName);
    SilentPassBoxes(Initial(), s1, s2, s3, s4);
    s4
  }

  /** The silent pass assigns only the four service picture boxes, never the antivirus one. */
  lemma SilentPassBoxes(s0: MonitorState, s1: MonitorState, s2: MonitorState, s3: MonitorState, s4: MonitorState)
    requires s0.images == map[]
    requires forall b :: b in s1.images <==> b in s0.images || b == BoxOf(WazuhService)
    requires forall b :: b in s2.images <==> b in s1.images || b == BoxOf(DbytesService)
    requires forall b :: b in s3.images <==> b in s2.images || b == BoxOf(SysmonService)
    requires forall b :: b in s4.images <==> b in s3.images || b == BoxOf(DejavuService)
    ensures PbDefender !in s4.images
  {
  }

  /**
   The silent pass paints each controller's own picture box with the image of
   its startup reading: the same box its live change events paint.
   */
  lemma SilentPassPaints(r: Readings, dejavuName: string)
    ensures forall svc :: BoxOf(svc) in SilentPass(r, dejavuName).images
              && SilentPass(r, dejavuName).images[BoxOf(svc)] == ClassifyService(r.Of(svc)).image
  {
    var s1 := UpdateStatus(Initial(), Wazuh, BoxOf(WazuhService), r.wazuh, false);
    var s2 := UpdateStatus(s1, DeceptiveBytes, BoxOf(DbytesService), r.dbytes, false);
    var s3 := UpdateStatus(s2, MicrosoftSysmon, BoxOf(SysmonService), r.sysmon, false);
    var s4 := UpdateStatus(s3, dejavuName, BoxOf(DejavuService), r.dejavu, false);
    SilentPassImages(r, Initial(), s1, s2, s3, s4);
  }

  /** Four successive paintings of the four service boxes leave each box with its service's image. */
  lemma SilentPassImages(r: Readings, s0: MonitorState, s1: MonitorState, s2: MonitorState,
                         s3: MonitorState, s4: MonitorState)
    requires s0.images == map[]
    requires forall b :: b in s1.images <==> b in s0.images || b == BoxOf(WazuhService)
    requires s1.images[BoxOf(WazuhService)] == ClassifyService(r.wazuh).image
    requires forall b :: b in s2.images <==> b in s1.images || b == BoxOf(DbytesService)
    requires s2.images[BoxOf(DbytesService)] == ClassifyService(r.dbytes).image
    requires forall b :: b in s1.images && b != BoxOf(DbytesService) ==> s2.images[b] == s1.images[b]
    requires forall b :: b in s3.images <==> b in s2.images || b == BoxOf(SysmonService)
    requires s3.images[BoxOf(SysmonService)] == ClassifyService(r.sysmon).image
    requires forall b :: b in s2.images && b != BoxOf(SysmonService) ==> s3.images[b] == s2.images[b]
    requires forall b :: b in s4.images <==> b in s3.images || b == BoxOf(DejavuService)
    requires s4.images[BoxOf(DejavuService)] == ClassifyService(r.dejavu).image
    requires forall b :: b in s3.images && b != BoxOf(DejavuService) ==> s4.images[b] == s3.images[b]
    ensures forall svc :: BoxOf(svc) in s4.images && s4.images[BoxOf(svc)] == ClassifyService(r.Of(svc)).image
  {
  }

  /** Four successive single-key overwrites of the seed are the four assignments in order. */
  lemma SilentPassHealth(r: Readings, s1: MonitorState, s2: MonitorState, s3: MonitorState,
                         s4: MonitorState, dejavuName: string)
    requires Overwrites(Seed(), s1.health, Wazuh, r.wazuh == Some(Running))
    requires Overwrites(s1.health, s2.health, DeceptiveBytes, r.dbytes == Some(Running))
    requires Overwrites(s2.health, s3.health, MicrosoftSysmon, r.sysmon == Some(Running))
    requires Overwrites(s3.health, s4.health, dejavuName, r.dejavu == Some(Running))
    ensures s4.health == StartupHealth(r, dejavuName)
  {
    OverwritesIsAssign(Seed(), s1.health, Wazuh, r.wazuh == Some(Running));
    OverwritesIsAssign(s1.health, s2.health, DeceptiveBytes, r.dbytes == Some(Running));
    OverwritesIsAssign(s2.health, s3.health, MicrosoftSysmon, r.sysmon == Some(Running));
    OverwritesIsAssign(s3.health, s4.health, dejavuName, r.dejavu == Some(Running));
  }

  /**
   The constructor as written: the silent pass, then one antivirus tick.
   A first antivirus status equal to the initial empty string shows no
   balloon and leaves the antivirus picture box unset.
   */
  function Construct(r: Readings, av: string): (s: MonitorState)
    ensures s.health == StartupHealth(r, "Dejavu")
    ensures Consistent(s)
    ensures s.avLastStatus == av
    ensures av == "" ==> s.balloons == [] && PbDefender !in s.images
    ensures av != "" ==> s.balloons == [Balloon(WindowsDefender, ClassifyAv(av).message, ClassifyAv(av).icon)]
  {
    AvCheckTick(SilentPass(r, "Dejavu"), av)
  }

  /** The startup dictionary holds the seeded names plus the name the Spooler was recorded under. */
  lemma StartupKeys(r: Readings, dejavuName: string)
    ensures forall k :: k in StartupHealth(r, dejavuName) <==> k in SeedNames() || k == dejavuName
  {
  }

  /** What each startup entry holds, whether the Spooler is recorded under "Dejavu" or under its subscribed name. */
  lemma StartupValues(r: Readings, dejavuName: string)
    requires dejavuName == "Dejavu" || dejavuName == LateralMovementProtection
    ensures forall k :: k in StartupHealth(r, dejavuName) <==> k in SeedNames() || k == dejavuName
    ensures StartupHealth(r, dejavuName)[dejavuName] == (r.dejavu == Some(Running))
    ensures StartupHealth(r, dejavuName)[Wazuh] == (r.wazuh == Some(Running))
    ensures StartupHealth(r, dejavuName)[DeceptiveBytes] == (r.dbytes == Some(Running))
    ensures StartupHealth(r, dejavuName)[MicrosoftSysmon] == (r.sysmon == Some(Running))
    ensures StartupHealth(r, dejavuName)[WindowsDefender]
    ensures dejavuName != LateralMovementProtection ==> StartupHealth(r, dejavuName)[LateralMovementProtection]
  {
    NamesDistinct();
    StartupKeys(r, dejavuName);
  }

  /** The summary of a startup dictionary is healthy exactly when all four readings are `Running`. */
  lemma StartupIndicator(r: Readings, h: HealthMap, dejavuName: string)
    requires forall k :: k in h <==> k in SeedNames() || k == dejavuName
    requires h[dejavuName] == (r.dejavu == Some(Running))
    requires h[Wazuh] == (r.wazuh == Some(Running))
    requires h[DeceptiveBytes] == (r.dbytes == Some(Running))
    requires h[MicrosoftSysmon] == (r.sysmon == Some(Running))
    requires h[WindowsDefender]
    requires dejavuName != LateralMovementProtection ==> h[LateralMovementProtection]
    ensures Indicator(h) == Healthy <==> forall svc :: r.Of(svc) == Some(Running)
  {
    if forall svc :: r.Of(svc) == Some(Running) {
      assert r.Of(WazuhService) == Some(Running) && r.Of(DbytesService) == Some(Running);
      assert r.Of(SysmonService) == Some(Running) && r.Of(DejavuService) == Some(Running);
      forall k | k in h
        ensures h[k]
      {
      }
    } else {
      var svc :| r.Of(svc) != Some(Running);
      var k := if svc == DejavuService then dejavuName else SubscribedName(svc);
      assert !h[k];
    }
  }

  /**
   The dictionary the constructor leaves: six keys, because the Spooler is
   recorded under "Dejavu"; the antivirus and "Lateral Movement Protection"
   entries still hold their seeded `true`; every other entry holds whether
   its service was running at startup.
   */
  lemma ConstructHealth(r: Readings, av: string)
    ensures forall k :: k in Construct(r, av).health <==> k in SeedNames() || k == "Dejavu"
    ensures |Construct(r, av).health| == 6
    ensures Construct(r, av).health[WindowsDefender] && Construct(r, av).health[LateralMovementProtection]
    ensures Construct(r, av).health["Dejavu"] == (r.dejavu == Some(Running))
    ensures forall svc :: svc != DejavuService ==>
              Construct(r, av).health[SubscribedName(svc)] == (r.Of(svc) == Some(Running))
  {
    AsWrittenStartup(r, Construct(r, av).health);
  }

  /** The entries of the startup dictionary the as-written constructor leaves, by service. */
  lemma AsWrittenStartup(r: Readings, h: HealthMap)
    requires h == StartupHealth(r, "Dejavu")
    ensures forall k :: k in h <==> k in SeedNames() || k == "Dejavu"
    ensures |h| == 6
    ensures h[WindowsDefender] && h[LateralMovementProtection]
    ensures h["Dejavu"] == (r.dejavu == Some(Running))
    ensures forall svc :: svc != DejavuService ==> h[SubscribedName(svc)] == (r.Of(svc) == Some(Running))
  {
    StartupValues(r, "Dejavu");
    StartupSize(r, "Dejavu");
  }

  /** After construction the tray is healthy exactly when all four services were running at startup. */
  lemma ConstructTray(r: Readings, av: string)
    ensures Construct(r, av).tray == Some(Healthy) <==> forall svc :: r.Of(svc) == Some(Running)
  {
    StartupValues(r, "Dejavu");
    StartupTray(r, Construct(r, av));
  }

  /** The tray of a consistent state whose dictionary is a startup dictionary with the Spooler under "Dejavu". */
  lemma StartupTray(r: Readings, s: MonitorState)
    requires forall k :: k in s.health <==> k in SeedNames() || k == "Dejavu"
    requires s.health["Dejavu"] == (r.dejavu == Some(Running))
    requires s.health[Wazuh] == (r.wazuh == Some(Running))
    requires s.health[DeceptiveBytes] == (r.dbytes == Some(Running))
    requires s.health[MicrosoftSysmon] == (r.sysmon == Some(Running))
    requires s.health[WindowsDefender] && s.health[LateralMovementProtection]
    requires Consistent(s)
    ensures s.tray == Some(Healthy) <==> forall svc :: r.Of(svc) == Some(Running)
  {
    StartupIndicator(r, s.health, "Dejavu");
  }

  /** Recording the Spooler under a name outside the seed grows the dictionary to six entries. */
  lemma StartupSize(r: Readings, dejavuName: string)
    requires dejavuName !in SeedNames()
    ensures |StartupHealth(r, dejavuName)| == 6
  {
    var h1 := Assign(Seed(), Wazuh, r.wazuh == Some(Running));
    var h2 := Assign(h1, DeceptiveBytes, r.dbytes == Some(Running));
    var h3 := Assign(h2, MicrosoftSysmon, r.sysmon == Some(Running));
    assert |h3| == 5;
  }

  /** What can happen after construction: a service controller reports a change, or the antivirus timer fires. */
  datatype Event =
    | ServiceChanged(svc: Service, status: Option<ServiceState>)
    | AvTick(avStatus: string)

  /** Handles one event the way the subscriptions wire it: service changes notify, under the subscribed name. */
  function Step(s: MonitorState, e: Event): (r: MonitorState)
    ensures e.ServiceChanged? ==>
              && Overwrites(s.health, r.health, SubscribedName(e.svc), e.status == Some(Running))
              && BoxOf(e.svc) in r.images
              && r.images[BoxOf(e.svc)] == ClassifyService(e.status).image
              && (forall b :: b in s.images && b != BoxOf(e.svc) ==> b in r.images && r.images[b] == s.images[b])
              && Consistent(r)
              && r.avLastStatus == s.avLastStatus
              && r.balloons == s.balloons + [Balloon(SubscribedName(e.svc), ClassifyService(e.status).message,
                                                     ClassifyService(e.status).icon)]
    ensures e.AvTick? ==> r.health == s.health && r.tray == s.tray && r.avLastStatus == e.avStatus
    ensures e.AvTick? && e.avStatus == s.avLastStatus ==> r == s
    ensures e.AvTick? && e.avStatus != s.avLastStatus ==>
              && r.balloons == s.balloons + [Balloon(WindowsDefender, ClassifyAv(e.avStatus).message, ClassifyAv(e.avStatus).icon)]
              && r.images == s.images[PbDefender := ClassifyAv(e.avStatus).image]
    ensures |s.balloons| <= |r.balloons| && r.balloons[..|s.balloons|] == s.balloons
  {
    match e
    case ServiceChanged(svc, status) => UpdateStatus(s, SubscribedName(svc), BoxOf(svc), status, true)
    case AvTick(status) => AvCheckTick(s, status)
  }

  /**
   Handles a sequence of events in order. Only the four subscribed names are
   ever written, so every other entry (the antivirus one, "Dejavu") keeps its
   value; the tray stays consistent with the dictionary; balloons are only
   ever appended.
   */
  function Run(s: MonitorState, events: seq<Event>): (r: MonitorState)
    ensures forall k :: k in s.health ==> k in r.health
    ensures forall k :: k in r.health ==> k in s.health || k in LiveNames()
    ensures forall k :: k in s.health && k !in LiveNames() ==> r.health[k] == s.health[k]
    ensures Consistent(s) ==> Consistent(r)
    ensures |s.balloons| <= |r.balloons| && r.balloons[..|s.balloons|] == s.balloons
    decreases |events|
  {
    if events == [] then s
    else
      var r := Run(Step(s, events[0]), events[1..]);
      RunPrefix(s.balloons, Step(s, events[0]).balloons, r.balloons);
      r
  }

  /** Being a prefix is transitive. */
  lemma RunPrefix(a: seq<Balloon>, b: seq<Balloon>, c: seq<Balloon>)
    requires |a| <= |b| && b[..|a|] == a
    requires |b| <= |c| && c[..|b|] == b
    ensures |a| <= |c| && c[..|a|] == a
  {
    assert c[..|a|] == c[..|b|][..|a|];
  }

  /** The balloons a sequence of events should show: one per service event, one per antivirus status change. */
  function ExpectedBalloons(avLast: string, events: seq<Event>): nat
    decreases |events|
  {
    if events == [] then 0
    else match events[0]
      case ServiceChanged(_, _) => 1 + ExpectedBalloons(avLast, events[1..])
      case AvTick(st) => (if st == avLast then 0 else 1) + ExpectedBalloons(st, events[1..])
  }

  /** Every service event shows exactly one balloon, and an antivirus tick shows one exactly when its status changed. */
  lemma {:induction false} RunBalloonCount(s: MonitorState, events: seq<Event>)
    ensures |Run(s, events).balloons| == |s.balloons| + ExpectedBalloons(s.avLastStatus, events)
    decreases |events|
  {
    if events != [] {
      RunBalloonCount(Step(s, events[0]), events[1..]);
    }
  }

  /** A run of identical antivirus ticks shows at most one balloon, and none when the status is the last one seen. */
  lemma {:induction false} RepeatedAvStatusIsSilent(s: MonitorState, status: string, n: nat)
    ensures ExpectedBalloons(s.avLastStatus, seq(n, _ => AvTick(status))) == (if n == 0 || status == s.avLastStatus then 0 else 1)
    ensures |Run(s, seq(n, _ => AvTick(status))).balloons| == |s.balloons| + (if n == 0 || status == s.avLastStatus then 0 else 1)
  {
    RepeatedTicks(s.avLastStatus, status, n);
    RunBalloonCount(s, seq(n, _ => AvTick(status)));
  }

  /** The expected count for `n` identical ticks: only the first can differ from the last status seen. */
  lemma {:induction false} RepeatedTicks(last: string, status: string, n: nat)
    ensures ExpectedBalloons(last, seq(n, _ => AvTick(status))) == (if n == 0 || status == last then 0 else 1)
    decreases n
  {
    if n > 0 {
      var evs := seq(n, _ => AvTick(status));
      assert evs[0] == AvTick(status);
      assert evs[1..] == seq(n - 1, _ => AvTick(status));
      RepeatedTicks(status, status, n - 1);
    }
  }

  /** Live events never write "Dejavu": whatever the constructor recorded there stays, whatever happens later. */
  lemma DejavuEntryFrozen(s: MonitorState, events: seq<Event>)
    requires "Dejavu" in s.health
    ensures "Dejavu" in Run(s, events).health
    ensures Run(s, events).health["Dejavu"] == s.health["Dejavu"]
  {
    assert "Dejavu" !in LiveNames() by { NamesDistinct(); }
  }

  /** The antivirus path never writes the dictionary: after construction its entry is `true` forever. */
  lemma DefenderEntryAlwaysHealthy(r: Readings, av: string, events: seq<Event>)
    ensures WindowsDefender in Run(Construct(r, av), events).health
    ensures Run(Construct(r, av), events).health[WindowsDefender]
  {
    ConstructHealth(r, av);
  }

  /**
   As written, a Spooler that is not running at startup keeps the tray
   degraded for the rest of the process: its reading sits under "Dejavu",
   which no later event overwrites.
   */
  lemma StaleDejavuKeepsTrayDegraded(r: Readings, av: string, events: seq<Event>)
    requires r.dejavu != Some(Running)
    ensures Run(Construct(r, av), events).tray == Some(Degraded)
  {
    var s := Construct(r, av);
    ConstructHealth(r, av);
    DejavuEntryFrozen(s, events);
    FalseEntryDegrades(Run(s, events), "Dejavu");
  }

  /** One `false` entry is enough to degrade a consistent tray. */
  lemma FalseEntryDegrades(s: MonitorState, k: string)
    requires Consistent(s) && k in s.health && !s.health[k]
    ensures s.tray == Some(Degraded)
  {
  }

  /** The latest reading of each service after the events, starting from the constructor's readings. */
  function Latest(r: Readings, events: seq<Event>): Readings
    decreases |events|
  {
    if events == [] then r
    else match events[0]
      case ServiceChanged(svc, status) => Latest(r.With(svc, status), events[1..])
      case AvTick(_) => Latest(r, events[1..])
  }

  /**
   A concrete run showing the stale entry: all services but the Spooler run at
   startup, then the Spooler starts; every latest reading is `Running`, yet
   the tray still reads degraded.
   */
  lemma StaleDejavuCounterexample()
    ensures var r := Readings(Some(Running), Some(Running), Some(Running), Some(Stopped));
            var events := [ServiceChanged(DejavuService, Some(Running))];
            && (forall svc :: Latest(r, events).Of(svc) == Some(Running))
            && Run(Construct(r, AvEnabled), events).tray == Some(Degraded)
  {
    var r := Readings(Some(Running), Some(Running), Some(Running), Some(Stopped));
    var events := [ServiceChanged(DejavuService, Some(Running))];
    assert Latest(r, events) == Latest(r.With(DejavuService, Some(Running)), []);
    StaleDejavuKeepsTrayDegraded(r, AvEnabled, events);
  }

  /**
   The dictionary mirrors the readings: exactly the seeded names, the
   antivirus entry `true`, each service's entry `true` exactly when its
   reading is `Running`, and the tray showing the summary.
   */
  ghost predicate Tracks(s: MonitorState, r: Readings)
  {
    && (forall k :: k in s.health <==> k in SeedNames())
    && s.health[WindowsDefender]
    && (forall svc :: s.health[SubscribedName(svc)] == (r.Of(svc) == Some(Running)))
    && Consistent(s)
  }

  /** The as-written constructor never mirrors any readings: its dictionary has the extra "Dejavu" key. */
  lemma AsWrittenNeverTracks(r: Readings, av: string, r2: Readings)
    ensures !Tracks(Construct(r, av), r2)
  {
    ConstructHealth(r, av);
    assert "Dejavu" in Construct(r, av).health;
    assert "Dejavu" !in SeedNames() by { NamesDistinct(); }
  }

  /** When the dictionary mirrors the readings, the tray is healthy exactly when every service runs. */
  lemma TrackedTray(s: MonitorState, r: Readings)
    requires Tracks(s, r)
    ensures s.tray == Some(Healthy) <==> forall svc :: r.Of(svc) == Some(Running)
  {
    if forall svc :: r.Of(svc) == Some(Running) {
      forall k | k in s.health
        ensures s.health[k]
      {
        assert k == WindowsDefender || k == SubscribedName(WazuhService) || k == SubscribedName(DbytesService)
            || k == SubscribedName(SysmonService) || k == SubscribedName(DejavuService);
      }
    } else {
      var svc :| r.Of(svc) != Some(Running);
      assert !s.health[SubscribedName(svc)];
    }
  }

  /** One event keeps the dictionary mirroring the updated readings. */
  lemma StepTracks(s: MonitorState, r: Readings, e: Event)
    requires Tracks(s, r)
    ensures Tracks(Step(s, e), if e.ServiceChanged? then r.With(e.svc, e.status) else r)
  {
    if e.ServiceChanged? {
      var t := Step(s, e);
      var r2 := r.With(e.svc, e.status);
      NamesDistinct();
      forall svc
        ensures t.health[SubscribedName(svc)] == (r2.Of(svc) == Some(Running))
      {
        if svc != e.svc {
          assert SubscribedName(svc) != SubscribedName(e.svc);
        }
      }
    }
  }

  /** Any sequence of events keeps the dictionary mirroring the latest readings. */
  lemma {:induction false} RunTracks(s: MonitorState, r: Readings, events: seq<Event>)
    requires Tracks(s, r)
    ensures Tracks(Run(s, events), Latest(r, events))
    decreases |events|
  {
    if events != [] {
      var e := events[0];
      StepTracks(s, r, e);
      RunTracks(Step(s, e), if e.ServiceChanged? then r.With(e.svc, e.status) else r, events[1..]);
    }
  }

  /** The constructor as evidently intended: the Spooler's startup reading recorded under its subscribed name. */
  function ConstructIntended(r: Readings, av: string): (s: MonitorState)
    ensures Tracks(s, r)
    ensures s.avLastStatus == av
  {
    var s := AvCheckTick(SilentPass(r, LateralMovementProtection), av);
    StartupValues(r, LateralMovementProtection);
    IntendedTracks(r, s);
    s
  }

  /** A startup dictionary with the Spooler under its subscribed name mirrors the readings. */
  lemma IntendedTracks(r: Readings, s: MonitorState)
    requires forall k :: k in s.health <==> k in SeedNames() || k == LateralMovementProtection
    requires s.health[LateralMovementProtection] == (r.dejavu == Some(Running))
    requires s.health[Wazuh] == (r.wazuh == Some(Running))
    requires s.health[DeceptiveBytes] == (r.dbytes == Some(Running))
    requires s.health[MicrosoftSysmon] == (r.sysmon == Some(Running))
    requires s.health[WindowsDefender] && Consistent(s)
    ensures Tracks(s, r)
  {
  }

  /**
   With the intended constructor the tray is healthy, after any events,
   exactly when every service's latest reading is `Running`.
   */
  lemma IntendedTrayFollowsLatestReadings(r: Readings, av: string, events: seq<Event>)
    ensures Run(ConstructIntended(r, av), events).tray == Some(Healthy) ==>
              forall svc :: Latest(r, events).Of(svc) == Some(Running)
    ensures (forall svc :: Latest(r, events).Of(svc) == Some(Running)) ==>
              Run(ConstructIntended(r, av), events).tray == Some(Healthy)
  {
    TrackedRunTray(ConstructIntended(r, av), r, events);
  }

  /** From a state that mirrors the readings, the tray after any events follows the latest readings. */
  lemma TrackedRunTray(s: MonitorState, r: Readings, events: seq<Event>)
    requires Tracks(s, r)
    ensures Run(s, events).tray == Some(Healthy) ==> forall svc :: Latest(r, events).Of(svc) == Some(Running)
    ensures (forall svc :: Latest(r, events).Of(svc) == Some(Running)) ==> Run(s, events).tray == Some(Healthy)
  {
    RunTracks(s, r, events);
    TrackedTray(Run(s, events), Latest(r, events));
  }
}

=== FILE: wrappers.dfy ===
/** The optional value used wherever the monitored program works with a nullable value. */
module Wrappers {

  /** `None` stands for C#'s `null`. */
  datatype Option<+T> = None | Some(value: T)
}
